=== FILE: README.md ===
# Tenant isolation of the time-registration web application

This project models the multi-tenant core of the Django application
`time_reg_web` and proves properties of it in Dafny 4.11.

In that application a **company** (tenant) owns its **customers**, **projects**,
**time entries**, **to-dos** and **milestones**. A **user profile** links a login
user to the company the user works for. The model covers five parts:

- **The tenant guard** (`TenantObjectMixin`, `mixins.dfy`). `get_queryset`
  narrows a view's rows to the acting user's company, and to nothing when the
  user has no profile or no company. `form_valid` overwrites the company of a
  newly created object with the user's company.
- **The database** (`models.dfy`, `database.dfy`).
  - It is a value `Db` with one sequence of rows per table, plus the next
    auto-increment key of the companies, users, customers and projects (the only
    tables whose keys the views use).
  - A class `Store` holds it and keeps the invariant `Consistent`: primary keys,
    unique columns and foreign keys that point at existing rows.
  - Its methods are the inserts and `save()` calls the views make, the two
    `post_save` receivers that create and re-save a user's profile, the full
    `on_delete=CASCADE` closure of a company deletion, and the rollback of a
    failed `transaction.atomic()` block.
- **The registration form** (`RegistrationForm`, `forms.dfy`). Each field is
  cleaned the way a required `CharField` is: strip the white space, refuse an
  empty value, refuse one over its `max_length` (100 for the company name, 150
  for the username, `EmailField`'s 320 for the e-mail address, none for the
  passwords), refuse a null character. Then comes
  the password/confirmation check.
- **The views** (`views.dfy`).
  - Company registration, which is atomic.
  - The dashboard.
  - The project form's company-filtered customer dropdown.
  - The customer and project create views.
- **Generic table operations** (`tables.dfy`): the row filter and the
  uniqueness constraint.

Each view takes the acting user's id: the user is already logged in. It ends in
one of three outcomes:
- a redirect;
- the form shown again;
- a database exception that escapes the view.

Modules: `Wrappers` (Option/Result), `Tables`, `Models`, `Forms`, `Mixins`,
`Database`, `Views`.

What the code does, and what the model therefore does:
- There is no timer, no rule of one running time entry per user, no per-company
  sequential number and no duration rounding. `customer_id` and `project_id` are
  plain integer columns, each unique over all companies.
- A user has one company pointer (nullable). There is no membership set and no
  company switch.
- "Every user has exactly one profile" is not an invariant. The profile's
  company foreign key cascades, so deleting a company deletes its users'
  profiles, and the users stay behind without one. Only "at most one profile per
  user" holds.
- Nothing keeps a project's customer in the project's company except the filtered
  dropdown of the project form. The model states that property (`TenantCoherent`)
  separately. It proves that every view that writes keeps it (registration, both
  customer create views, the project create view), and so does a company
  deletion.

## Model

| member | source | states |
|---|---|---|
| Tables.Filter | djangoproject/time_reg_web/mixins.py:23 | `queryset.filter(...)`: the result keeps exactly the rows that satisfy the condition, each with its original multiplicity. It never adds a row. |
| Mixins.GetQueryset | djangoproject/time_reg_web/mixins.py:12-23 | Empty when the user has no profile or the profile's company is null. Otherwise every returned row has the user's company, no row occurs more often than in the unscoped queryset, and no row of the user's company is dropped. |
| Mixins.ScopesAreDisjoint | djangoproject/time_reg_web/mixins.py:18-23 | Two users with different company pointers never see a common row. |
| Mixins.StampCompany | djangoproject/time_reg_web/mixins.py:25-31 | The instance to be saved gets the acting user's company, whatever company it carried. Every other submitted field is kept. |
| Mixins.CustomersOfIsScoped | djangoproject/time_reg_web/views.py:29-31 | The explicit customer filter on `user.profile.company` yields exactly the guard's narrowed customer list, in the same order. |
| Models.FindProfile | djangoproject/time_reg_web/models.py:30-32 | `user.profile`: a found profile belongs to that user. None is returned exactly when no profile row names the user. |
| Models.FindProfileUnique | djangoproject/time_reg_web/models.py:30-32 | Under the one-to-one constraint, the profile found is the user's only one. |
| Models.CustomersOf | djangoproject/time_reg_web/views.py:29-31 | `Customer.objects.filter(company=...)`: exactly the customers of that company. A null company matches no customer. |
| Models.CascadeDelete | djangoproject/time_reg_web/models.py:33-117 | Deleting a company leaves no company, profile, customer, project, time entry, to-do or milestone of that company. Every remaining row was there before. Users and key counters are untouched. |
| Models.CascadeKeepsConsistent | djangoproject/time_reg_web/models.py:33-117 | The cascade leaves no dangling foreign key and breaks no unique column. |
| Models.CascadeSparesOtherTenants | djangoproject/time_reg_web/models.py:33-117 | When rows only point within their own company, every row of every other company survives the deletion. |
| Models.NewProjectKeepsCoherent | djangoproject/time_reg_web/views.py:52-59 | A new project whose customer belongs to the project's company keeps every row pointing within its own company. |
| Forms.Strip | djangoproject/time_reg_web/forms.py:16-30 | `CharField` stripping: the result has no white space at either end. It is empty exactly when the value is all white space. |
| Forms.StripSlice | djangoproject/time_reg_web/forms.py:16-30 | The stripped value is a slice `s[i..j]` of the value, and only white space lies before `i` and from `j` on. |
| Forms.StripKeeps | djangoproject/time_reg_web/forms.py:16-30 | Stripping keeps every character that is not white space. |
| Forms.CleanText | djangoproject/time_reg_web/forms.py:16-30 | A required `CharField` cleans exactly when the stripped value is non-empty, within `max_length` and free of null characters. The cleaned value is the stripped one. A missing or blank value is refused as required. An over-long value is refused with its limit and length. A null character is refused only when it is in the stripped value. |
| Forms.CleanOptionalText | djangoproject/time_reg_web/models.py:67 | A `blank=True` text field cleans exactly when it is missing or its stripped value has no null character. The cleaned value is the stripped one, or empty when missing. |
| Forms.Clean | djangoproject/time_reg_web/forms.py:32-39 | `clean()` fails, with the mismatch error, exactly when both passwords are present, non-empty and different. Otherwise it returns `cleaned_data` unchanged. |
| Forms.FullClean | djangoproject/time_reg_web/forms.py:15-39 | `is_valid()` holds exactly when no field has an error and `clean()` succeeds. The cleaned data then holds every field. The mismatch error is reported exactly when `clean()` fails. |
| Forms.MissingPasswordIsNoMismatch | djangoproject/time_reg_web/forms.py:37 | When either password field is missing, no mismatch error is raised. The form is still invalid, through the field's own error. |
| Forms.ValidFormIff | djangoproject/time_reg_web/forms.py:15-39 | The form is valid exactly when every field cleans and the two stripped passwords are equal. |
| Forms.ValidFormFields | djangoproject/time_reg_web/forms.py:16-30 | Every field of a valid form is present, stripped and non-empty. |
| Forms.ValidFormNonBlank | djangoproject/time_reg_web/forms.py:21 | The username of a valid form is not blank. |
| Forms.ValidFormPasswordsMatch | djangoproject/time_reg_web/forms.py:37-38 | The two passwords of a valid form are equal. |
| Forms.ValidFormBounds | djangoproject/time_reg_web/forms.py:16-21 | In a valid form the company name is at most 100 characters and the username at most 150 (the general max_length lemma applied to those two fields). |
| Forms.ValidFormWithinMaxLength | djangoproject/time_reg_web/forms.py:16-22 | Every field of a valid form that has a `max_length` is within it; for the e-mail address that is `EmailField`'s 320. |
| Database.ReplaceUserConsistent | djangoproject/time_reg_web/models.py:130-133 | Updating a stored user, with a username no other user holds, keeps every key unique and every reference to a user valid. |
| Database.ReplaceProfileConsistent | djangoproject/time_reg_web/views.py:82-85 | Updating the profile of an existing user, with an existing company if it names one, keeps every key unique and every reference valid. |
| Database.ReplaceWithStored | djangoproject/time_reg_web/models.py:130-133 | Re-saving a stored profile unchanged leaves the profile table as it was. |
| Database.Store.CreateCompany | djangoproject/time_reg_web/views.py:74-76 | Appends one company with the given name, the creation time and the next fresh id. Nothing else changes and the store stays consistent. |
| Database.Store.SaveProfile | djangoproject/time_reg_web/views.py:82-85 | `profile.save()` updates the user's profile row when there is one and inserts it otherwise. No other table changes. |
| Database.Store.UserPostSave | djangoproject/time_reg_web/models.py:123-133 | For a new user, appends the one blank profile (no company, not admin); a second profile is refused. For an existing user, changes nothing and succeeds exactly when the profile exists. |
| Database.NormalizeEmail | djangoproject/time_reg_web/views.py:77-81 | `create_user` stores the normalised address. An address without `@` is kept as given. |
| Database.NormalizeEmailSplit | djangoproject/time_reg_web/views.py:77-81 | An address with an `@` is stripped and split at the `@` no other `@` follows: the normal form keeps the name part and lower-cases the domain part. |
| Database.NormalFormIsFixed | djangoproject/time_reg_web/views.py:77-81 | A stripped address, split at its last `@`, with its domain lower-cased, normalises to itself. |
| Database.NormalizeEmailIdempotent | djangoproject/time_reg_web/views.py:77-81 | Normalising an address twice gives the same result as normalising it once. |
| Database.Store.CreateUser | djangoproject/time_reg_web/views.py:77-81 | A blank username raises `ValueError` and a taken one an integrity error, both without a change. Otherwise one user is added with the normalised e-mail address, together with exactly one profile that has no company and no admin right. |
| Database.Store.SaveUser | djangoproject/time_reg_web/models.py:130-133 | Re-saving a user never adds a profile. It only re-saves the existing one and raises `RelatedObjectDoesNotExist` exactly when there is none. A username another user holds is refused. |
| Database.Store.InsertCustomer | djangoproject/time_reg_web/models.py:50-55 | The insert succeeds exactly when company and `customer_id` are both set, the company exists and no customer of any company has that `customer_id`. On success one row is appended. |
| Database.Store.InsertProject | djangoproject/time_reg_web/models.py:61-70 | The insert succeeds exactly when the company is set and exists, the customer exists and no project of any company has that `project_id`. On success one row is appended. |
| Database.Store.DeleteCompany | djangoproject/time_reg_web/models.py:33-117 | `company.delete()`: the new state is the cascade closure of the old one, and the store stays consistent. When every row pointed within its own company before, that still holds. |
| Database.Store.Rollback | djangoproject/time_reg_web/views.py:73 | A failed atomic block restores the state saved when it began. |
| Views.RegisterCompany | djangoproject/time_reg_web/views.py:70-88 | An invalid form re-renders and changes nothing. A taken username raises and the whole transaction is rolled back. Otherwise the view redirects to login, with exactly one new company, one new user (normalised e-mail address) and that user's profile as admin of the company. The view keeps every row pointing within its own company. |
| Views.RegistrationMakesAdmin | djangoproject/time_reg_web/views.py:74-85 | A registration adds exactly one company (named from the form), one user and one profile. The new user's only profile points at the new company with the admin right. No customer, project or time entry changes. |
| Views.Dashboard | djangoproject/time_reg_web/views.py:20-32 | The project list is the guard's narrowed queryset and the customer list is exactly the customers of the user's company. It raises exactly when the user has no profile. |
| Views.DashboardCorrected | djangoproject/time_reg_web/views.py:20-32 | With the guard's own rule, a user without a company sees two empty lists. Any other user sees exactly the projects and customers of their company. |
| Views.OrphanedAdminDashboard | djangoproject/time_reg_web/views.py:25-32 | Take a valid registration on a fresh database, then delete the registered company. The registration redirects to login. In a session the admin opened before the deletion, the dashboard as written raises and the corrected one shows empty lists. |
| Views.OrphanedAdminLogin | djangoproject/time_reg_web/models.py:130-133 | After the same registration and deletion, a new login of the admin raises: re-saving the user to record the login time runs the `post_save` receiver on the missing profile. |
| Views.RegisteredCompanyDeleted | djangoproject/time_reg_web/models.py:33-36 | Deleting the company deletes its admin's profile with it, while the admin's user row (user 1) stays. |
| Views.ProjectFormChoices | djangoproject/time_reg_web/views.py:52-59 | The customer dropdown offers exactly the customers of the user's company: the guard's narrowed customer list. It raises for a user without a profile. |
| Views.CleanProjectForm | djangoproject/time_reg_web/models.py:61-70 | The project form is valid exactly when all of these hold: a customer from the dropdown, a `project_id` within the `IntegerField` range that no project of any company uses, a non-blank name of at most 255 characters, a description without a null character, and a start date. The cleaned fields are the submitted ones, with name and description stripped and a missing description empty. |
| Views.CreateProject | djangoproject/time_reg_web/views.py:44-59 | A missing profile raises and an invalid form re-renders, both without a change. Otherwise one project is added with the user's company, whose customer belongs to that same company. The view keeps every row pointing within its own company. |
| Views.CleanCustomerForm | djangoproject/time_reg_web/models.py:54-55 | The customer form is valid exactly when the name (at most 255) and the e-mail address (at most 254) are non-blank. |
| Views.CreateCustomer | djangoproject/time_reg_web/views.py:36-41 | As written, no submission ever stores a customer or redirects. An invalid form re-renders; a valid one raises. |
| Models.NewCustomerKeepsCoherent | djangoproject/time_reg_web/views.py:36-41 | A new customer under a fresh primary key keeps every row pointing within its own company. |
| Views.CreateCustomerCorrected | djangoproject/time_reg_web/views.py:36-41 | With `customer_id` on the form, a number outside the `IntegerField` range or already used by any company is refused. Otherwise exactly one customer of the user's company is added. The view keeps every row pointing within its own company. |

## Left out

- URL routing, the admin site, the e-mail task queue and its configuration: these are framework wiring and I/O.
- `TailwindPasswordResetForm`, `LogoutView` and every `__str__`: widget styling, session handling and display only.
- The GET handlers and template rendering: an outcome stands for the page, the redirect or the escaping exception.
- Authentication: `LoginRequiredMixin`'s redirect of anonymous users is not modelled. Every view takes the id of a logged-in user.
- Password hashing in `create_user`: the password is stored as the opaque value given.
- E-mail syntax validation (registration and customer forms) is left out. E-mail fields only check required/strip/length/null character.
- Database.Store.CreateUser: the Unicode NFKC normalisation `create_user` applies to the username is not modelled; the username is stored as cleaned.
- Database.NormalizeEmail: only the ASCII capitals of the domain are lower-cased. Python's `str.lower` also lower-cases capitals of other scripts. The function's own contract covers the address without `@`; Database.NormalizeEmailSplit states the normal form of every other address.
- Forms.CleanText: Django runs every validator of a field and collects all their messages. The model reports one error per field: required, then too long, then null character.
- Views.RegisterCompany / Database.Store.CreateUser: column widths are not enforced. The registration form accepts an e-mail address of up to 320 characters, and the model stores it, while the `email` column of Django's user model is an `EmailField` of `max_length` 254. SQLite, which does not enforce the width, stores such an address. A backend that enforces widths (PostgreSQL, MySQL in strict mode) raises a `DataError` inside the transaction instead, and the view fails rather than redirecting.
- Views.CleanProjectForm and Views.CreateCustomerCorrected: the integer range they enforce is Django's default `IntegerField` range, a signed 32-bit integer. A database backend may declare a wider one; the project's settings are not part of this model.
- Parsing of integer, date and checkbox inputs: the project form receives them already parsed.
- `Todo` and `Milstones`: no view creates them. They appear only as rows the cascade deletes.
- `created_at` and other clock readings are a parameter `now`. Auto-increment counters are restored by a rollback, which a real database need not do.
- Mixins.StampCompany: the unsaved form instance is a value whose company field is replaced, not an object updated in place. Nothing else holds a reference to it before it is saved.
- Views.OrphanedAdminLogin: `last_login` is not a column of the model, so the save `login()` makes is modelled as re-saving the user row unchanged.
- Database.Store.SaveProfile: Django tries an UPDATE and falls back to an INSERT. The model decides by whether the user's profile row exists, which gives the same result.

## Findings

| source | as written | input that shows it | evidently intended | confidence | as-written member | corrected member |
|---|---|---|---|---|---|---|
| djangoproject/time_reg_web/views.py:36-41 | The customer form's fields leave out `customer_id`, a non-null integer column without a default, so every valid submission fails on insert with an integrity error. | Any valid customer form, e.g. name "Acme", e-mail "info@acme.example", from a user whose profile has a company. | `customer_id` on the form, as the comment on line 38 lists it. A number used by any company is refused by `validate_unique`. | high, not executed | Views.CreateCustomer | Views.CreateCustomerCorrected |
| djangoproject/time_reg_web/views.py:25-32 | The dashboard reads `user.profile` unguarded. A user whose company was deleted (the profile cascades with it) gets an exception instead of the empty page the guard gives a user without a profile. | Register a company, log in as its admin, delete the company through the admin site, then open the dashboard in that session. (Logging in anew after the deletion raises too.) | Empty project and customer lists for a user with no profile or no company, as `get_queryset` does. | medium, not executed | Views.OrphanedAdminDashboard | Views.DashboardCorrected |

=== FILE: database.dfy ===
/** The database as the application's object managers see it: inserts with their
    constraint checks, `save()` of an existing row, the cascade of a company
    deletion, the transaction savepoint, and the two `post_save` receivers that
    keep one profile per user. */
module Database {
  import opened Wrappers
  import opened Tables
  import opened Models
  import Forms

  /** The exceptions the database layer raises. */
  datatype DbError = IntegrityError | ValueError | RelatedObjectDoesNotExist

  /** The position of the last `@` in `s`, if there is one. */
  function LastAt(s: string): (r: Option<nat>)
    ensures r.None? <==> '@' !in s
    ensures r.Some? ==> r.value < |s| && s[r.value] == '@' && '@' !in s[r.value + 1..]
  {
    if s == [] then None
    else if s[|s| - 1] == '@' then Some(|s| - 1)
    else
      assert s == s[..|s| - 1] + [s[|s| - 1]];
      LastAt(s[..|s| - 1])
  }

  predicate IsUpper(ch: char) {
    'A' <= ch <= 'Z'
  }

  /** `str.lower()` on the ASCII letters: every capital becomes its small letter
      and every other character is kept. */
  function LowerAscii(d: string): (r: string)
    ensures |r| == |d|
    ensures forall i :: 0 <= i < |r| ==> !IsUpper(r[i])
    ensures forall i :: 0 <= i < |d| && !IsUpper(d[i]) ==> r[i] == d[i]
    ensures forall i :: 0 <= i < |d| && IsUpper(d[i]) ==> r[i] as int == d[i] as int + 32
  {
    seq(|d|, i requires 0 <= i < |d| => if IsUpper(d[i]) then (d[i] as int + 32) as char else d[i])
  }

  /** `BaseUserManager.normalize_email`: an address without an `@` is stored
      unchanged; any other is stripped and split at its last `@`, and its domain
      part lower-cased (`NormalizeEmailSplit` states the split). */
  function NormalizeEmail(email: string): (r: string)
    ensures '@' !in email ==> r == email
  {
    if '@' !in email then email
    else
      var s := Forms.Strip(email);
      Forms.StripKeeps(email, '@');
      var i := LastAt(s).value;
      s[..i] + "@" + LowerAscii(s[i + 1..])
  }

  /** The normal form of an address with an `@`: its stripped form split at the
      `@` no other `@` follows, the name part kept and the domain lower-cased. */
  lemma NormalizeEmailSplit(email: string) returns (i: nat)
    requires '@' in email
    ensures var s := Forms.Strip(email);
      && i < |s| && s[i] == '@' && '@' !in s[i + 1..]
      && NormalizeEmail(email) == s[..i] + "@" + LowerAscii(s[i + 1..])
  {
    Forms.StripKeeps(email, '@');
    i := LastAt(Forms.Strip(email)).value;
  }

  lemma LowerAsciiIdempotent(d: string)
    ensures LowerAscii(LowerAscii(d)) == LowerAscii(d)
  {
  }

  /** Lower-casing turns no character into white space. */
  lemma LowerAsciiKeepsNonSpace(d: string, k: nat)
    requires k < |d| && !Forms.IsSpace(d[k])
    ensures !Forms.IsSpace(LowerAscii(d)[k])
  {
    if IsUpper(d[k]) {
      assert 97 <= LowerAscii(d)[k] as int <= 122;
    }
  }

  /** Lower-casing turns no character into an `@`. */
  lemma LowerAsciiAddsNoAt(d: string)
    requires '@' !in d
    ensures '@' !in LowerAscii(d)
  {
    var r := LowerAscii(d);
    forall k | 0 <= k < |r| ensures r[k] != '@' {
      if IsUpper(d[k]) {
        assert 97 <= r[k] as int <= 122;
      } else {
        assert d[k] in d;
      }
    }
  }

  /** The last `@` is the one no other `@` follows. */
  lemma LastAtIs(s: string, i: nat)
    requires i < |s| && s[i] == '@' && '@' !in s[i + 1..]
    ensures LastAt(s) == Some(i)
  {
  }

  /** An address already split at its last `@`, with its domain lower-cased and
      no white space around it, is its own normal form. */
  lemma NormalFormIsFixed(s: string, i: nat)
    requires s != [] && !Forms.IsSpace(s[0]) && !Forms.IsSpace(s[|s| - 1])
    requires i < |s| && s[i] == '@' && '@' !in s[i + 1..]
    ensures var r := s[..i] + "@" + LowerAscii(s[i + 1..]); NormalizeEmail(r) == r
  {
    var tail := s[i + 1..];
    var d := LowerAscii(tail);
    var r := s[..i] + "@" + d;
    assert r[i] == '@' && r[..i] == s[..i] && r[i + 1..] == d;
    assert !Forms.IsSpace(r[0]) by {
      if i > 0 { assert r[0] == s[0]; }
    }
    assert !Forms.IsSpace(r[|r| - 1]) by {
      if d != [] {
        assert tail[|d| - 1] == s[|s| - 1];
        LowerAsciiKeepsNonSpace(tail, |d| - 1);
        assert r[|r| - 1] == d[|d| - 1];
      }
    }
    Forms.StripUnchanged(r);
    LowerAsciiAddsNoAt(tail);
    LastAtIs(r, i);
    LowerAsciiIdempotent(tail);
  }

  /** Normalising an address twice gives what normalising it once gives. */
  lemma NormalizeEmailIdempotent(email: string)
    ensures NormalizeEmail(NormalizeEmail(email)) == NormalizeEmail(email)
  {
    if '@' in email {
      var i := NormalizeEmailSplit(email);
      NormalFormIsFixed(Forms.Strip(email), i);
    }
  }

  /** Some user already has this username. */
  predicate UsernameTaken(users: seq<User>, username: string) {
    exists u :: u in users && u.username == username
  }

  /** The profile table after `p.save()` updated the row of user `p.user`. */
  function ReplaceProfile(ps: seq<UserProfile>, p: UserProfile): (r: seq<UserProfile>)
    ensures |r| == |ps|
    ensures forall i :: 0 <= i < |ps| ==> r[i] == if ps[i].user == p.user then p else ps[i]
  {
    seq(|ps|, i requires 0 <= i < |ps| => if ps[i].user == p.user then p else ps[i])
  }

  /** The user table after `u.save()` updated the row with `u`'s id. */
  function ReplaceUser(us: seq<User>, u: User): (r: seq<User>)
    ensures |r| == |us|
    ensures forall i :: 0 <= i < |us| ==> r[i] == if us[i].id == u.id then u else us[i]
  {
    seq(|us|, i requires 0 <= i < |us| => if us[i].id == u.id then u else us[i])
  }

  /** Saving a profile exactly as it is stored changes nothing. */
  lemma ReplaceWithStored(ps: seq<UserProfile>, p: UserProfile)
    requires UniqueBy(ps, ProfileKey) && p in ps
    ensures ReplaceProfile(ps, p) == ps
  {
    var r := ReplaceProfile(ps, p);
    forall i | 0 <= i < |ps| ensures r[i] == ps[i] {
      if ps[i].user == p.user {
        UniqueKeyDeterminesRow(ps, ProfileKey, ps[i], p);
      }
    }
  }

  /** Updating the profile that was just appended for a user no older row
      belongs to updates the appended row only. */
  lemma ReplaceAppended(ps: seq<UserProfile>, q: UserProfile, p: UserProfile)
    requires q.user == p.user
    requires forall x :: x in ps ==> x.user != p.user
    ensures ReplaceProfile(ps + [q], p) == ps + [p]
  {
    var r := ReplaceProfile(ps + [q], p);
    forall i | 0 <= i < |ps| + 1 ensures r[i] == (ps + [p])[i] {
      if i < |ps| {
        assert ps[i] in ps;
      }
    }
  }

  /** Updating a stored user whose new username no other user holds keeps every
      key unique and every reference to a user pointing at a row. */
  lemma ReplaceUserConsistent(db: Db, u: User)
    requires Consistent(db) && HasUser(db.users, u.id)
    requires !(exists v :: v in db.users && v.id != u.id && v.username == u.username)
    ensures Consistent(db.(users := ReplaceUser(db.users, u)))
    ensures HasUser(ReplaceUser(db.users, u), u.id)
  {
    var us := ReplaceUser(db.users, u);
    forall i, j | 0 <= i < |us| && 0 <= j < |us| && i != j
      ensures us[i].id != us[j].id && us[i].username != us[j].username
    {
      assert us[i].id == db.users[i].id && us[j].id == db.users[j].id;
      if db.users[i].id == u.id {
        assert db.users[j] in db.users;
      } else if db.users[j].id == u.id {
        assert db.users[i] in db.users;
      }
    }
    assert UniqueBy(us, UserKey) && UniqueBy(us, UsernameKey);
    forall k | HasUser(db.users, k) ensures HasUser(us, k) {
      var x :| x in db.users && x.id == k;
      var i :| 0 <= i < |db.users| && db.users[i] == x;
      assert us[i].id == k && us[i] in us;
    }
    forall x | x in us ensures x.id < db.nextUser {
      var i :| 0 <= i < |us| && us[i] == x;
      assert db.users[i] in db.users;
    }
  }

  /** Updating the stored profile of an existing user, with a company that exists
      if it names one, keeps every key unique and every reference valid. */
  lemma ReplaceProfileConsistent(db: Db, p: UserProfile)
    requires Consistent(db) && HasUser(db.users, p.user)
    requires p.company.Some? ==> HasCompany(db.companies, p.company.value)
    ensures Consistent(db.(profiles := ReplaceProfile(db.profiles, p)))
  {
    var ps := db.profiles;
    var r := ReplaceProfile(ps, p);
    assert UniqueBy(r, ProfileKey) by {
      forall i, j | 0 <= i < |r| && 0 <= j < |r| && i != j ensures r[i].user != r[j].user {
        assert r[i].user == ps[i].user && r[j].user == ps[j].user;
      }
    }
    forall x | x in r ensures x == p || x in ps {
      var i :| 0 <= i < |r| && r[i] == x;
    }
  }

  class Store {
    var db: Db

    ghost predicate Valid()
      reads this
    {
      Consistent(db)
    }

    constructor ()
      ensures Valid() && db == EmptyDb
    {
      db := EmptyDb;
    }

    /** `Company.objects.create(name=name)`; `created_at` is the clock reading
        `now`. */
    method CreateCompany(name: string, now: Timestamp) returns (id: CompanyId)
      requires Valid()
      modifies this
      ensures Valid()
      ensures id == old(db.nextCompany) && !HasCompany(old(db.companies), id)
      ensures db == old(db).(companies := old(db.companies) + [Company(id, name, now)], nextCompany := id + 1)
    {
      id := db.nextCompany;
      var c := Company(id, name, now);
      UniqueAppend(db.companies, c, CompanyKey);
      ghost var before := db;
      db := db.(companies := db.companies + [c], nextCompany := id + 1);
      forall k | HasCompany(before.companies, k) ensures HasCompany(db.companies, k) {
        var x :| x in before.companies && x.id == k;
        assert x in db.companies;
      }
    }

    /** `profile.save()`: the row of user `p.user` is updated to `p`, or `p` is
        inserted when that user has no profile row. */
    method SaveProfile(p: UserProfile)
      requires Valid() && HasUser(db.users, p.user)
      requires p.company.Some? ==> HasCompany(db.companies, p.company.value)
      modifies this
      ensures Valid()
      ensures FindProfile(old(db.profiles), p.user).Some? ==>
        db == old(db).(profiles := ReplaceProfile(old(db.profiles), p))
      ensures FindProfile(old(db.profiles), p.user).None? ==>
        db == old(db).(profiles := old(db.profiles) + [p])
    {
      var ps := db.profiles;
      if FindProfile(ps, p.user).Some? {
        ReplaceProfileConsistent(db, p);
        db := db.(profiles := ReplaceProfile(ps, p));
      } else {
        UniqueAppend(ps, p, ProfileKey);
        db := db.(profiles := ps + [p]);
      }
    }

    /** The `post_save` receivers for a user, in registration order:
        `create_user_profile` inserts a blank profile when the user row was just
        created, then `save_user_profile` saves the user's profile, which raises
        when the user has none. */
    method UserPostSave(uid: UserId, created: bool) returns (r: Result<(), DbError>)
      requires Valid() && HasUser(db.users, uid)
      modifies this
      ensures Valid()
      ensures var had := FindProfile(old(db.profiles), uid).Some?;
        && (created && !had ==>
              r == Ok(()) && db == old(db).(profiles := old(db.profiles) + [UserProfile(uid, None, false)]))
        && (created && had ==> r == Err(IntegrityError) && db == old(db))
        && (!created ==> db == old(db) && (r.Ok? <==> had) && (r.Err? ==> r.error == RelatedObjectDoesNotExist))
    {
      if created {
        if FindProfile(db.profiles, uid).Some? {
          return Err(IntegrityError);
        }
        var blank := UserProfile(uid, None, false);
        UniqueAppend(db.profiles, blank, ProfileKey);
        db := db.(profiles := db.profiles + [blank]);
      }
      var p := FindProfile(db.profiles, uid);
      if p.None? {
        return Err(RelatedObjectDoesNotExist);
      }
      ReplaceWithStored(db.profiles, p.value);
      SaveProfile(p.value);
      r := Ok(());
    }

    /** `User.objects.create_user(username, email, password)`: the user row is
        inserted, then the `post_save` receivers run with `created` set, which
        adds the user's one profile, with no company and no admin right. */
    method CreateUser(username: string, email: string, password: string) returns (r: Result<UserId, DbError>)
      requires Valid()
      modifies this
      ensures Valid()
      ensures username == "" ==> r == Err(ValueError) && db == old(db)
      ensures username != "" && UsernameTaken(old(db.users), username) ==>
        r == Err(IntegrityError) && db == old(db)
      ensures username != "" && !UsernameTaken(old(db.users), username) ==>
        var uid := old(db.nextUser);
        && r == Ok(uid)
        && !HasUser(old(db.users), uid)
        && db == old(db).(users := old(db.users) + [User(uid, username, NormalizeEmail(email), password)],
                          profiles := old(db.profiles) + [UserProfile(uid, None, false)],
                          nextUser := uid + 1)
    {
      if username == "" {
        return Err(ValueError);
      }
      if UsernameTaken(db.users, username) {
        return Err(IntegrityError);
      }
      var uid := db.nextUser;
      var u := User(uid, username, NormalizeEmail(email), password);
      UniqueAppend(db.users, u, UserKey);
      UniqueAppend(db.users, u, UsernameKey);
      ghost var before := db;
      db := db.(users := db.users + [u], nextUser := uid + 1);
      forall k | HasUser(before.users, k) ensures HasUser(db.users, k) {
        var x :| x in before.users && x.id == k;
        assert x in db.users;
      }
      forall p | p in db.profiles ensures p.user != uid {
        var x :| x in before.users && x.id == p.user;
      }
      assert u in db.users;
      var saved := UserPostSave(uid, true);
      assert saved.Ok?;  // a fresh user has no profile yet, so neither receiver raises
      r := Ok(uid);
    }

    /** `user.save()` of an existing user: the row is updated (a username another
        user has is refused), then the `post_save` receivers run without `created`,
        so no profile is added; the existing one is saved again, and a missing one
        raises. */
    method SaveUser(u: User) returns (r: Result<(), DbError>)
      requires Valid() && HasUser(db.users, u.id)
      modifies this
      ensures Valid()
      ensures (exists v :: v in old(db.users) && v.id != u.id && v.username == u.username) ==>
        r == Err(IntegrityError) && db == old(db)
      ensures !(exists v :: v in old(db.users) && v.id != u.id && v.username == u.username) ==>
        && db == old(db).(users := ReplaceUser(old(db.users), u))
        && (r.Ok? <==> FindProfile(old(db.profiles), u.id).Some?)
        && (r.Err? ==> r.error == RelatedObjectDoesNotExist)
    {
      if exists v :: v in db.users && v.id != u.id && v.username == u.username {
        return Err(IntegrityError);
      }
      ReplaceUserConsistent(db, u);
      db := db.(users := ReplaceUser(db.users, u));
      r := UserPostSave(u.id, false);
    }

    /** Saving a new customer: both non-null columns must be set, the company must
        exist and `customer_id` must not be used by any customer of any company. */
    method InsertCustomer(inst: Instance<CustomerFields>) returns (r: Result<Pk, DbError>)
      requires Valid()
      modifies this
      ensures Valid()
      ensures r.Ok? <==>
        && inst.company.Some? && inst.fields.customerId.Some?
        && HasCompany(old(db.companies), inst.company.value)
        && (forall x :: x in old(db.customers) ==> x.customerId != inst.fields.customerId.value)
      ensures r.Err? ==> r.error == IntegrityError && db == old(db)
      ensures r.Ok? ==>
        && r.value == old(db.nextCustomer)
        && db == AddCustomer(old(db), inst.company.value, inst.fields.customerId.value, inst.fields.name, inst.fields.email)
    {
      if inst.company.None? || inst.fields.customerId.None? {
        return Err(IntegrityError);
      }
      if !(exists x :: x in db.companies && x.id == inst.company.value) {
        return Err(IntegrityError);
      }
      if exists x :: x in db.customers && x.customerId == inst.fields.customerId.value {
        return Err(IntegrityError);
      }
      var pk := db.nextCustomer;
      var c := Customer(pk, inst.company.value, inst.fields.customerId.value, inst.fields.name, inst.fields.email);
      UniqueAppend(db.customers, c, CustomerKey);
      UniqueAppend(db.customers, c, CustomerNumber);
      ghost var before := db;
      db := db.(customers := db.customers + [c], nextCustomer := pk + 1);
      forall k | HasCustomer(before.customers, k) ensures HasCustomer(db.customers, k) {
        var x :| x in before.customers && x.pk == k;
        assert x in db.customers;
      }
      r := Ok(pk);
    }

    /** Saving a new project: the company must be set and exist, the customer must
        exist, and `project_id` must not be used by any project of any company. */
    method InsertProject(inst: Instance<ProjectFields>) returns (r: Result<Pk, DbError>)
      requires Valid()
      modifies this
      ensures Valid()
      ensures r.Ok? <==>
        && inst.company.Some?
        && HasCompany(old(db.companies), inst.company.value)
        && HasCustomer(old(db.customers), inst.fields.customer)
        && (forall p :: p in old(db.projects) ==> p.projectId != inst.fields.projectId)
      ensures r.Err? ==> r.error == IntegrityError && db == old(db)
      ensures r.Ok? ==> r.value == old(db.nextProject) && db == AddProject(old(db), inst.company.value, inst.fields)
    {
      var f := inst.fields;
      if inst.company.None? {
        return Err(IntegrityError);
      }
      if !(exists x :: x in db.companies && x.id == inst.company.value) {
        return Err(IntegrityError);
      }
      if !(exists x :: x in db.customers && x.pk == f.customer) {
        return Err(IntegrityError);
      }
      if exists p :: p in db.projects && p.projectId == f.projectId {
        return Err(IntegrityError);
      }
      var pk := db.nextProject;
      var p := Project(pk, inst.company.value, f.customer, f.projectId, f.name,
                       f.description, f.startDate, f.endDate, f.isActive);
      UniqueAppend(db.projects, p, ProjectKey);
      UniqueAppend(db.projects, p, ProjectNumber);
      ghost var before := db;
      db := db.(projects := db.projects + [p], nextProject := pk + 1);
      forall k | HasProject(before.projects, k) ensures HasProject(db.projects, k) {
        var x :| x in before.projects && x.pk == k;
        assert x in db.projects;
      }
      r := Ok(pk);
    }

    /** `company.delete()`, with every cascade it sets off. */
    method DeleteCompany(c: CompanyId)
      requires Valid()
      modifies this
      ensures Valid()
      ensures db == CascadeDelete(old(db), c)
      ensures TenantCoherent(old(db)) ==> TenantCoherent(db)
    {
      CascadeKeepsConsistent(db, c);
      db := CascadeDelete(db, c);
    }

    /** Rolling a failed transaction back to the state saved when it began. */
    method Rollback(saved: Db)
      requires Consistent(saved)
      modifies this
      ensures Valid() && db == saved
    {
      db := saved;
    }
  }
}

=== FILE: forms.dfy ===
/** The company registration form: five required text fields, two of them bounded in
    length, and a form-wide check that the password and its confirmation agree.

    A submitted form is the map of the POST fields that were present. Each field is
    cleaned as a required `CharField` is: surrounding white space is stripped, an
    empty result is a "required" error, and a bounded field longer than its bound
    is a "too long" error. `cleaned_data` holds the fields that cleaned without
    error; `Clean` then compares the two passwords. */
module Forms {
  import opened Wrappers

  datatype Field = CompanyName | Username | Email | Password | PasswordConfirm

  /** The fields in declaration order. */
  const Fields: seq<Field> := [CompanyName, Username, Email, Password, PasswordConfirm]

  /** `max_length` of each field: 100 for the company name, 150 for the username,
      and `EmailField`'s default of 320 for the e-mail address. */
  function MaxLength(f: Field): Option<nat> {
    match f
    case CompanyName => Some(100)
    case Username => Some(150)
    case Email => Some(320)
    case _ => None
  }

  lemma FieldListed(f: Field)
    ensures f in Fields
  {
    match f
    case CompanyName => assert Fields[0] == f;
    case Username => assert Fields[1] == f;
    case Email => assert Fields[2] == f;
    case Password => assert Fields[3] == f;
    case PasswordConfirm => assert Fields[4] == f;
  }

  /** The characters Python's `str.strip()` removes (those for which `str.isspace()`
      holds). */
  predicate IsSpace(ch: char) {
    var c := ch as int;
    || 0x09 <= c <= 0x0D || 0x1C <= c <= 0x20 || c == 0x85 || c == 0xA0 || c == 0x1680
    || 0x2000 <= c <= 0x200A || c == 0x2028 || c == 0x2029 || c == 0x202F || c == 0x205F || c == 0x3000
  }

  function TrimStart(s: string): (r: string)
    ensures |r| <= |s| && r == s[|s| - |r|..]
    ensures forall k :: 0 <= k < |s| - |r| ==> IsSpace(s[k])
    ensures r == [] || !IsSpace(r[0])
  {
    if s != [] && IsSpace(s[0]) then TrimStart(s[1..]) else s
  }

  function TrimEnd(s: string): (r: string)
    ensures |r| <= |s| && r == s[..|r|]
    ensures forall k :: |r| <= k < |s| ==> IsSpace(s[k])
    ensures r == [] || !IsSpace(r[|r| - 1])
  {
    if s != [] && IsSpace(s[|s| - 1]) then TrimEnd(s[..|s| - 1]) else s
  }

  /** A value without surrounding white space is its own stripped form. */
  lemma StripUnchanged(s: string)
    requires s != [] && !IsSpace(s[0]) && !IsSpace(s[|s| - 1])
    ensures Strip(s) == s
  {
  }

  /** `str.strip()`: the value with its leading and trailing white space removed.
      It is empty exactly when the value is white space only. */
  function Strip(s: string): (r: string)
    ensures |r| <= |s|
    ensures r != [] ==> !IsSpace(r[0]) && !IsSpace(r[|r| - 1])
    ensures r == [] <==> forall k :: 0 <= k < |s| ==> IsSpace(s[k])
  {
    var t := TrimStart(s);
    var r := TrimEnd(t);
    assert r != [] ==> r[0] == t[0];
    r
  }

  /** The stripped value is the slice `s[i..j]` of the value, and only white space
      lies before `i` and from `j` on. */
  lemma StripSlice(s: string) returns (i: nat, j: nat)
    ensures i <= j <= |s| && Strip(s) == s[i..j]
    ensures forall k :: 0 <= k < i ==> IsSpace(s[k])
    ensures forall k :: j <= k < |s| ==> IsSpace(s[k])
  {
    var t := TrimStart(s);
    var r := TrimEnd(t);
    i := |s| - |t|;
    j := i + |r|;
    forall k | j <= k < |s| ensures IsSpace(s[k]) {
      assert s[k] == t[k - i];
    }
    assert r == s[i..j];
  }

  /** Stripping keeps every character that is not white space. */
  lemma StripKeeps(s: string, c: char)
    requires c in s && !IsSpace(c)
    ensures c in Strip(s)
  {
    var i, j := StripSlice(s);
    var k :| 0 <= k < |s| && s[k] == c;
    assert Strip(s)[k - i] == c;
  }

  /** Why a field failed to clean: it was blank, longer than its bound, or held a
      null character (which every `CharField` refuses). */
  datatype FieldError = Required | TooLong(limit: nat, length: nat) | NullCharacter

  datatype FormError = FieldInvalid(field: Field, reason: FieldError) | PasswordMismatch

  type CleanedData = map<Field, string>

  function Lookup(post: map<Field, string>, f: Field): Option<string> {
    if f in post then Some(post[f]) else None
  }

  /** Cleaning a required text field: strip it, refuse it when nothing is left,
      refuse it when it is longer than its `max_length` or holds a null character. */
  function CleanText(raw: Option<string>, maxLength: Option<nat>): (r: Result<string, FieldError>)
    ensures r.Ok? <==>
      && raw.Some? && Strip(raw.value) != []
      && (maxLength.Some? ==> |Strip(raw.value)| <= maxLength.value)
      && '\0' !in Strip(raw.value)
    ensures r.Ok? ==> r.value == Strip(raw.value)
    ensures raw.None? || Strip(raw.value) == [] ==> r == Err(Required)
    ensures raw.Some? && Strip(raw.value) != [] && maxLength.Some? && |Strip(raw.value)| > maxLength.value ==>
      r == Err(TooLong(maxLength.value, |Strip(raw.value)|))
    ensures r.Err? && r.error == NullCharacter ==> raw.Some? && '\0' in Strip(raw.value)
  {
    var value := if raw.None? then "" else Strip(raw.value);
    if value == "" then Err(Required)
    else if maxLength.Some? && |value| > maxLength.value then Err(TooLong(maxLength.value, |value|))
    else if '\0' in value then Err(NullCharacter)
    else Ok(value)
  }

  /** Cleaning a text field that may be left blank (`blank=True`): the stripped
      value, or the empty string when the field is absent; a null character is
      still refused. */
  function CleanOptionalText(raw: Option<string>): (r: Result<string, FieldError>)
    ensures r.Ok? <==> raw.None? || '\0' !in Strip(raw.value)
    ensures r.Ok? ==> r.value == if raw.None? then "" else Strip(raw.value)
    ensures r.Err? ==> r.error == NullCharacter
  {
    var value := if raw.None? then "" else Strip(raw.value);
    if '\0' in value then Err(NullCharacter) else Ok(value)
  }

  /** Cleaning one field of the registration form. */
  function CleanField(f: Field, raw: Option<string>): Result<string, FieldError> {
    CleanText(raw, MaxLength(f))
  }

  /** `cleaned_data` after the field-by-field cleaning: the fields that cleaned. */
  function CleanedFields(post: map<Field, string>): (cd: CleanedData)
    ensures forall f :: f in cd <==> CleanField(f, Lookup(post, f)).Ok?
    ensures forall f :: f in cd ==> cd[f] == CleanField(f, Lookup(post, f)).value
  {
    forall f ensures f in Fields { FieldListed(f); }
    map f | f in Fields && CleanField(f, Lookup(post, f)).Ok? :: CleanField(f, Lookup(post, f)).value
  }

  /** The field errors, in field order. */
  function FieldErrors(fs: seq<Field>, post: map<Field, string>): (errs: seq<FormError>)
    ensures errs == [] <==> forall f :: f in fs ==> CleanField(f, Lookup(post, f)).Ok?
    ensures forall e :: e in errs ==> e.FieldInvalid? && e.field in fs
  {
    if fs == [] then []
    else
      var first := CleanField(fs[0], Lookup(post, fs[0]));
      (if first.Err? then [FieldInvalid(fs[0], first.error)] else []) + FieldErrors(fs[1..], post)
  }

  /** The form-wide check: the passwords must agree when both are present and
      non-empty. On success `cleaned_data` is returned unchanged. */
  function Clean(cleaned: CleanedData): (r: Result<CleanedData, FormError>)
    ensures r.Ok? ==> r.value == cleaned
    ensures r.Err? ==> r.error == PasswordMismatch
    ensures r.Err? <==>
      && Password in cleaned && PasswordConfirm in cleaned
      && cleaned[Password] != "" && cleaned[PasswordConfirm] != ""
      && cleaned[Password] != cleaned[PasswordConfirm]
  {
    var password := Lookup(cleaned, Password);
    var confirm := Lookup(cleaned, PasswordConfirm);
    if password.Some? && password.value != "" && confirm.Some? && confirm.value != ""
       && password.value != confirm.value
    then Err(PasswordMismatch)
    else Ok(cleaned)
  }

  /** `form.is_valid()` and, when it holds, `form.cleaned_data`; otherwise every
      error the form reports: the field errors, then the form-wide one. */
  function FullClean(post: map<Field, string>): (r: Result<CleanedData, seq<FormError>>)
    ensures r.Ok? <==> FieldErrors(Fields, post) == [] && Clean(CleanedFields(post)).Ok?
    ensures r.Ok? ==> r.value == CleanedFields(post) && forall f :: f in r.value
    ensures r.Err? ==> (PasswordMismatch in r.error <==> Clean(CleanedFields(post)).Err?)
  {
    var cleaned := CleanedFields(post);
    var errs := FieldErrors(Fields, post);
    var formWide := Clean(cleaned);
    NoFieldErrors(post);
    if errs == [] && formWide.Ok? then Ok(formWide.value)
    else Err(errs + (if formWide.Err? then [formWide.error] else []))
  }

  /** A password field that is absent (it failed its own cleaning) never causes a
      mismatch error; only the field's own "required" error is reported. */
  lemma MissingPasswordIsNoMismatch(post: map<Field, string>)
    requires Lookup(post, Password).None? || Lookup(post, PasswordConfirm).None?
    ensures Clean(CleanedFields(post)).Ok?
    ensures FullClean(post).Err? && PasswordMismatch !in FullClean(post).error
  {
    var errs := FieldErrors(Fields, post);
    assert Password in Fields && PasswordConfirm in Fields;
    assert errs != [];
    assert forall e :: e in errs ==> e != PasswordMismatch;
  }

  /** The field errors are empty exactly when every field cleans. */
  lemma NoFieldErrors(post: map<Field, string>)
    ensures FieldErrors(Fields, post) == [] <==> forall f :: CleanField(f, Lookup(post, f)).Ok?
  {
    forall f ensures f in Fields { FieldListed(f); }
  }

  /** The form is valid exactly when every field cleans and the two stripped
      passwords are equal. */
  lemma ValidFormIff(post: map<Field, string>)
    ensures FullClean(post).Ok? <==>
      && (forall f :: CleanField(f, Lookup(post, f)).Ok?)
      && Password in post && PasswordConfirm in post
      && Strip(post[Password]) == Strip(post[PasswordConfirm])
  {
    NoFieldErrors(post);
    if forall f :: CleanField(f, Lookup(post, f)).Ok? {
      var cleaned := CleanedFields(post);
      assert CleanField(Password, Lookup(post, Password)).Ok?;
      assert CleanField(PasswordConfirm, Lookup(post, PasswordConfirm)).Ok?;
      assert Password in cleaned && PasswordConfirm in cleaned;
    }
  }

  /** The cleaned data of a valid form holds every field, stripped and non-empty. */
  lemma ValidFormFields(post: map<Field, string>, cd: CleanedData)
    requires FullClean(post) == Ok(cd)
    ensures forall f :: f in cd && f in post && cd[f] == Strip(post[f]) && cd[f] != ""
  {
    NoFieldErrors(post);
    forall f ensures f in cd && f in post && cd[f] == Strip(post[f]) && cd[f] != "" {
      assert CleanField(f, Lookup(post, f)).Ok?;
    }
  }

  /** A valid form's username is not blank. */
  lemma ValidFormNonBlank(post: map<Field, string>, cd: CleanedData)
    requires FullClean(post) == Ok(cd)
    ensures Username in cd && cd[Username] != ""
  {
    NoFieldErrors(post);
    assert CleanField(Username, Lookup(post, Username)).Ok?;
  }

  /** A valid form's two passwords are equal. */
  lemma ValidFormPasswordsMatch(post: map<Field, string>, cd: CleanedData)
    requires FullClean(post) == Ok(cd)
    ensures Password in cd && PasswordConfirm in cd && cd[Password] == cd[PasswordConfirm]
  {
    ValidFormFields(post, cd);
  }

  /** A valid form's company name is at most 100 characters long and its username
      at most 150. */
  lemma ValidFormBounds(post: map<Field, string>, cd: CleanedData)
    requires FullClean(post) == Ok(cd)
    ensures CompanyName in cd && |cd[CompanyName]| <= 100
    ensures Username in cd && |cd[Username]| <= 150
  {
    ValidFormWithinMaxLength(post, cd, CompanyName);
    ValidFormWithinMaxLength(post, cd, Username);
  }

  /** Every field of a valid form is within its `max_length`, the e-mail address
      within 320 characters among them. */
  lemma ValidFormWithinMaxLength(post: map<Field, string>, cd: CleanedData, f: Field)
    requires FullClean(post) == Ok(cd) && MaxLength(f).Some?
    ensures f in cd && |cd[f]| <= MaxLength(f).value
  {
    NoFieldErrors(post);
    assert CleanField(f, Lookup(post, f)).Ok?;
  }
}

=== FILE: mixins.dfy ===
/** The tenant guard every tenant view inherits: a queryset is narrowed to the
    acting user's company (and to nothing when the user has no company), and an
    object created through a form gets the acting user's company whatever company
    it carried. */
module Mixins {
  import opened Wrappers
  import opened Tables
  import opened Models

  /** The company the acting user works for: none when the user has no profile or
      the profile's company is null. */
  function ActiveCompany(profile: Option<UserProfile>): Option<CompanyId> {
    if profile.None? then None else profile.value.company
  }

  /** The narrowed queryset. `queryset` is the view's unscoped queryset, `companyOf`
      reads a row's company and `profile` is the acting user's profile, if any. The
      result never holds a row the queryset does not hold (nor more copies of it),
      holds only rows of the user's company, drops none of them, and is empty when
      the user has no company. */
  function GetQueryset<T(!new)>(queryset: seq<T>, companyOf: T -> CompanyId, profile: Option<UserProfile>)
    : (r: seq<T>)
    ensures ActiveCompany(profile).None? ==> r == []
    ensures forall x :: multiset(r)[x] <= multiset(queryset)[x]
    ensures forall x :: x in r ==> Some(companyOf(x)) == ActiveCompany(profile)
    ensures forall x :: x in queryset && Some(companyOf(x)) == ActiveCompany(profile) ==> x in r
  {
    if profile.None? || profile.value.company.None? then []
    else
      var c := profile.value.company.value;
      Filter(queryset, (x: T) => companyOf(x) == c)
  }

  /** Two users of different companies never see a common row. */
  lemma ScopesAreDisjoint<T(!new)>(queryset: seq<T>, companyOf: T -> CompanyId, a: UserProfile, b: UserProfile)
    requires a.company != b.company
    ensures forall x :: x in GetQueryset(queryset, companyOf, Some(a)) ==> x !in GetQueryset(queryset, companyOf, Some(b))
  {
  }

  /** The explicit `Customer.objects.filter(company=user.profile.company)` of the
      dashboard and of the project form selects the same customers, in the same
      order, as the guard's narrowed queryset over all customers. */
  lemma {:induction false} CustomersOfIsScoped(customers: seq<Customer>, profile: UserProfile)
    ensures CustomersOf(customers, profile.company) == GetQueryset(customers, CustomerCompany, Some(profile))
  {
    if customers != [] && profile.company.Some? {
      CustomersOfIsScoped(customers[1..], profile);
    }
  }

  /** The assignment `form_valid` makes before saving: the instance's company
      becomes the acting user's, and every other submitted field is kept. */
  function StampCompany<F>(inst: Instance<F>, profile: UserProfile): (r: Instance<F>)
    ensures r.company == profile.company
    ensures r.fields == inst.fields
  {
    inst.(company := profile.company)
  }
}

=== FILE: models.dfy ===
/** The tenant data model of the time-registration application: one company
    (tenant) owns its customers, projects, time entries, to-dos and milestones, and a
    user profile points a user at the company the user works for.

    The database is a value `Db` holding one sequence of rows per table, in
    primary-key order, plus the next id of the companies, users, customers and
    projects.
    `Consistent` is what the database's constraints guarantee (primary keys, unique
    columns, foreign keys that point at existing rows); `CascadeDelete` is what
    `on_delete=CASCADE` does when a company row is deleted. */
module Models {
  import opened Wrappers
  import opened Tables

  type CompanyId = nat
  type UserId = nat
  /** Primary key of a customer or project row. */
  type Pk = nat
  /** A calendar date (`DateField`), as a day number. */
  type Date = int
  /** A point in time (`DateTimeField`), as a clock reading. */
  type Timestamp = int

  /** The range `full_clean` enforces on an `IntegerField` (Django's default
      `integer_field_range`, a signed 32-bit integer). */
  const IntegerFieldMin: int := -0x8000_0000
  const IntegerFieldMax: int := 0x7FFF_FFFF

  predicate InIntegerFieldRange(n: int) {
    IntegerFieldMin <= n <= IntegerFieldMax
  }

  /** A tenant; `createdAt` is filled in from the clock when the row is inserted. */
  datatype Company = Company(id: CompanyId, name: string, createdAt: Timestamp)

  /** A login identity; `password` is the stored credential, opaque to this model. */
  datatype User = User(id: UserId, username: string, email: string, password: string)

  /** One-to-one with a user; `company` is nullable. */
  datatype UserProfile = UserProfile(user: UserId, company: Option<CompanyId>, isCompanyAdmin: bool)

  datatype Customer = Customer(pk: Pk, company: CompanyId, customerId: int, name: string, email: string)

  datatype Project = Project(
    pk: Pk, company: CompanyId, customer: Pk, projectId: int, name: string,
    description: string, startDate: Date, endDate: Option<Date>, isActive: bool)

  /** A time entry; both dates are mandatory. */
  datatype TimeRegistry = TimeRegistry(
    company: CompanyId, user: UserId, project: Pk, startTime: Date, endTime: Date, description: string)

  datatype Todo = Todo(
    company: CompanyId, user: UserId, customer: Pk, project: Pk, title: string, description: string,
    priority: int, dueDate: Option<Date>, isCompleted: bool, createdAt: Timestamp)

  /** A project milestone (the source's `Milstones` model). */
  datatype Milestone = Milestone(
    company: CompanyId, project: Pk, title: string, description: string,
    dueDate: Option<Date>, isCompleted: bool, createdAt: Timestamp)

  /** An unsaved model instance, as a create form builds it: its company foreign
      key as it stands (unset until someone assigns it) and its other fields. */
  datatype Instance<F> = Instance(company: Option<CompanyId>, fields: F)

  /** The fields of a new customer other than its company; `customerId` is unset
      when the form does not carry it (the column has no default). */
  datatype CustomerFields = CustomerFields(customerId: Option<int>, name: string, email: string)

  /** The fields of a new project other than its company. */
  datatype ProjectFields = ProjectFields(
    customer: Pk, projectId: int, name: string, description: string,
    startDate: Date, endDate: Option<Date>, isActive: bool)

  datatype Db = Db(
    companies: seq<Company>, users: seq<User>, profiles: seq<UserProfile>,
    customers: seq<Customer>, projects: seq<Project>, timeEntries: seq<TimeRegistry>,
    todos: seq<Todo>, milestones: seq<Milestone>,
    nextCompany: CompanyId, nextUser: UserId, nextCustomer: Pk, nextProject: Pk)

  const EmptyDb := Db([], [], [], [], [], [], [], [], 1, 1, 1, 1)

  // Key columns, named so that the uniqueness constraints below mention one
  // function value each.
  function CompanyKey(c: Company): CompanyId { c.id }
  function UserKey(u: User): UserId { u.id }
  function UsernameKey(u: User): string { u.username }
  function ProfileKey(p: UserProfile): UserId { p.user }
  function CustomerKey(c: Customer): Pk { c.pk }
  function CustomerNumber(c: Customer): int { c.customerId }
  function ProjectKey(p: Project): Pk { p.pk }
  function ProjectNumber(p: Project): int { p.projectId }
  function CustomerCompany(c: Customer): CompanyId { c.company }
  function ProjectCompany(p: Project): CompanyId { p.company }

  ghost predicate HasCompany(companies: seq<Company>, id: CompanyId) {
    exists c :: c in companies && c.id == id
  }
  ghost predicate HasUser(users: seq<User>, id: UserId) {
    exists u :: u in users && u.id == id
  }
  ghost predicate HasCustomer(customers: seq<Customer>, pk: Pk) {
    exists c :: c in customers && c.pk == pk
  }
  ghost predicate HasProject(projects: seq<Project>, pk: Pk) {
    exists p :: p in projects && p.pk == pk
  }

  /** Every stored primary key is below its table's next auto-increment value. */
  ghost predicate KeysFresh(db: Db) {
    && (forall c :: c in db.companies ==> c.id < db.nextCompany)
    && (forall u :: u in db.users ==> u.id < db.nextUser)
    && (forall c :: c in db.customers ==> c.pk < db.nextCustomer)
    && (forall p :: p in db.projects ==> p.pk < db.nextProject)
  }

  /** Primary keys and the unique columns: `User.username`, the one-to-one
      `UserProfile.user`, and `customer_id` and `project_id`, which are unique
      over the whole table, not per company. */
  ghost predicate KeysUnique(db: Db) {
    && UniqueBy(db.companies, CompanyKey)
    && UniqueBy(db.users, UserKey)
    && UniqueBy(db.users, UsernameKey)
    && UniqueBy(db.profiles, ProfileKey)
    && UniqueBy(db.customers, CustomerKey)
    && UniqueBy(db.customers, CustomerNumber)
    && UniqueBy(db.projects, ProjectKey)
    && UniqueBy(db.projects, ProjectNumber)
  }

  /** Every foreign key points at an existing row. The `company` of customers,
      projects, time entries, to-dos and milestones is never null (its type has no
      null); only a profile's company may be. */
  ghost predicate ReferencesExist(db: Db) {
    && (forall p :: p in db.profiles ==>
          HasUser(db.users, p.user) && (p.company.Some? ==> HasCompany(db.companies, p.company.value)))
    && (forall c :: c in db.customers ==> HasCompany(db.companies, c.company))
    && (forall p :: p in db.projects ==>
          HasCompany(db.companies, p.company) && HasCustomer(db.customers, p.customer))
    && (forall t :: t in db.timeEntries ==>
          HasCompany(db.companies, t.company) && HasUser(db.users, t.user) && HasProject(db.projects, t.project))
    && (forall t :: t in db.todos ==>
          && HasCompany(db.companies, t.company) && HasUser(db.users, t.user)
          && HasCustomer(db.customers, t.customer) && HasProject(db.projects, t.project))
    && (forall m :: m in db.milestones ==>
          HasCompany(db.companies, m.company) && HasProject(db.projects, m.project))
  }

  /** What the database's constraints guarantee of every committed state. */
  ghost predicate Consistent(db: Db) {
    KeysFresh(db) && KeysUnique(db) && ReferencesExist(db)
  }

  /** Rows that point at each other belong to the same company. The schema does not
      enforce this (a project's customer may belong to another company); only the
      filtered customer dropdown of the project form keeps it. */
  ghost predicate TenantCoherent(db: Db) {
    && (forall p, c :: p in db.projects && c in db.customers && c.pk == p.customer ==> c.company == p.company)
    && (forall t, p :: t in db.timeEntries && p in db.projects && p.pk == t.project ==> p.company == t.company)
    && (forall t, c :: t in db.todos && c in db.customers && c.pk == t.customer ==> c.company == t.company)
    && (forall t, p :: t in db.todos && p in db.projects && p.pk == t.project ==> p.company == t.company)
    && (forall m, p :: m in db.milestones && p in db.projects && p.pk == m.project ==> p.company == m.company)
  }

  /** The database after inserting a customer of `company` under the next
      customer primary key. */
  function AddCustomer(db: Db, company: CompanyId, customerId: int, name: string, email: string): Db {
    db.(customers := db.customers + [Customer(db.nextCustomer, company, customerId, name, email)],
        nextCustomer := db.nextCustomer + 1)
  }

  /** The database after inserting a project of `company` under the next project
      primary key. */
  function AddProject(db: Db, company: CompanyId, f: ProjectFields): Db {
    db.(projects := db.projects + [Project(db.nextProject, company, f.customer, f.projectId, f.name,
                                           f.description, f.startDate, f.endDate, f.isActive)],
        nextProject := db.nextProject + 1)
  }

  /** A new project whose customer belongs to the project's own company, under a
      primary key no project has yet, keeps every row pointing within its company. */
  lemma NewProjectKeepsCoherent(db: Db, p: Project)
    requires Consistent(db) && TenantCoherent(db)
    requires !HasProject(db.projects, p.pk)
    requires exists c :: c in db.customers && c.pk == p.customer && c.company == p.company
    ensures TenantCoherent(db.(projects := db.projects + [p]))
  {
    var r := db.(projects := db.projects + [p]);
    var owner :| owner in db.customers && owner.pk == p.customer && owner.company == p.company;
    forall q, c | q in r.projects && c in r.customers && c.pk == q.customer
      ensures c.company == q.company
    {
      if q == p {
        UniqueKeyDeterminesRow(db.customers, CustomerKey, c, owner);
      }
    }
    forall t, q | t in r.timeEntries && q in r.projects && q.pk == t.project
      ensures q.company == t.company
    {
      assert q != p;
    }
    forall t, q | t in r.todos && q in r.projects && q.pk == t.project
      ensures q.company == t.company
    {
      assert q != p;
    }
    forall m, q | m in r.milestones && q in r.projects && q.pk == m.project
      ensures q.company == m.company
    {
      assert q != p;
    }
  }

  /** A new customer under a primary key no customer has yet is referenced by
      no project or to-do, so every row still points within its company. */
  lemma NewCustomerKeepsCoherent(db: Db, c: Customer)
    requires Consistent(db) && TenantCoherent(db)
    requires !HasCustomer(db.customers, c.pk)
    ensures TenantCoherent(db.(customers := db.customers + [c]))
  {
    var r := db.(customers := db.customers + [c]);
    forall p, x | p in r.projects && x in r.customers && x.pk == p.customer
      ensures x.company == p.company
    {
      assert x != c;
    }
    forall t, x | t in r.todos && x in r.customers && x.pk == t.customer
      ensures x.company == t.company
    {
      assert x != c;
    }
  }

  /** The profile row of user `uid`, if there is one (`user.profile`, or the
      absence that makes `hasattr(user, 'profile')` false). */
  function FindProfile(profiles: seq<UserProfile>, uid: UserId): (r: Option<UserProfile>)
    ensures r.Some? ==> r.value in profiles && r.value.user == uid
    ensures r.None? <==> forall p :: p in profiles ==> p.user != uid
  {
    if profiles == [] then None
    else if profiles[0].user == uid then Some(profiles[0])
    else FindProfile(profiles[1..], uid)
  }

  /** With one profile per user, the profile found is the user's only one. */
  lemma FindProfileUnique(profiles: seq<UserProfile>, uid: UserId, p: UserProfile)
    requires UniqueBy(profiles, ProfileKey)
    requires p in profiles && p.user == uid
    ensures FindProfile(profiles, uid) == Some(p)
  {
    var r := FindProfile(profiles, uid);
    UniqueKeyDeterminesRow(profiles, ProfileKey, r.value, p);
  }

  /** `Customer.objects.filter(company=company)`, row by row: a null company
      matches nothing, because no customer has a null company. */
  function CustomersOf(customers: seq<Customer>, company: Option<CompanyId>): (r: seq<Customer>)
    ensures forall c :: c in r <==> c in customers && company == Some(c.company)
    ensures company.None? ==> r == []
  {
    if customers == [] then []
    else
      var rest := CustomersOf(customers[1..], company);
      assert forall c :: c in customers <==> c == customers[0] || c in customers[1..];
      if company == Some(customers[0].company) then [customers[0]] + rest else rest
  }

  /** The customers deleted with company `c`. */
  function DoomedCustomers(db: Db, c: CompanyId): set<Pk> {
    set x | x in db.customers && x.company == c :: x.pk
  }

  /** The projects deleted with company `c`: its own, and those whose customer is
      deleted with it. */
  function DoomedProjects(db: Db, c: CompanyId): set<Pk> {
    set p | p in db.projects && (p.company == c || p.customer in DoomedCustomers(db, c)) :: p.pk
  }

  /** Deleting company `c` with every `on_delete=CASCADE` followed to the end:
      profiles pointing at `c` (the users themselves stay), the customers, projects,
      time entries, to-dos and milestones of `c`, and also every row that points at
      a deleted customer or project, whichever company it belongs to. */
  function CascadeDelete(db: Db, c: CompanyId): (r: Db)
    ensures forall x :: x in r.companies ==> x in db.companies && x.id != c
    ensures forall p :: p in r.profiles ==> p in db.profiles && p.company != Some(c)
    ensures forall x :: x in r.customers ==> x in db.customers && x.company != c
    ensures forall p :: p in r.projects ==> p in db.projects && p.company != c
    ensures forall t :: t in r.timeEntries ==> t in db.timeEntries && t.company != c
    ensures forall t :: t in r.todos ==> t in db.todos && t.company != c
    ensures forall m :: m in r.milestones ==> m in db.milestones && m.company != c
    ensures r.users == db.users
    ensures r.nextCompany == db.nextCompany && r.nextUser == db.nextUser
    ensures r.nextCustomer == db.nextCustomer && r.nextProject == db.nextProject
  {
    var custs := DoomedCustomers(db, c);
    var projs := DoomedProjects(db, c);
    db.(companies := Filter(db.companies, (x: Company) => x.id != c),
        profiles := Filter(db.profiles, (p: UserProfile) => p.company != Some(c)),
        customers := Filter(db.customers, (x: Customer) => x.company != c),
        projects := Filter(db.projects, (p: Project) => p.company != c && p.customer !in custs),
        timeEntries := Filter(db.timeEntries, (t: TimeRegistry) => t.company != c && t.project !in projs),
        todos := Filter(db.todos, (t: Todo) => t.company != c && t.customer !in custs && t.project !in projs),
        milestones := Filter(db.milestones, (m: Milestone) => m.company != c && m.project !in projs))
  }

  /** The cascade never leaves a dangling foreign key or breaks a unique column. */
  lemma CascadeKeepsConsistent(db: Db, c: CompanyId)
    requires Consistent(db)
    ensures Consistent(CascadeDelete(db, c))
  {
    var r := CascadeDelete(db, c);
    var custs := DoomedCustomers(db, c);
    var projs := DoomedProjects(db, c);
    UniqueFilter(db.companies, (x: Company) => x.id != c, CompanyKey);
    UniqueFilter(db.profiles, (p: UserProfile) => p.company != Some(c), ProfileKey);
    UniqueFilter(db.customers, (x: Customer) => x.company != c, CustomerKey);
    UniqueFilter(db.customers, (x: Customer) => x.company != c, CustomerNumber);
    UniqueFilter(db.projects, (p: Project) => p.company != c && p.customer !in custs, ProjectKey);
    UniqueFilter(db.projects, (p: Project) => p.company != c && p.customer !in custs, ProjectNumber);
    assert KeysUnique(r);
    forall k | HasCompany(db.companies, k) && k != c ensures HasCompany(r.companies, k) {
      var x :| x in db.companies && x.id == k;
      assert x in r.companies;
    }
    forall k | HasCustomer(db.customers, k) && k !in custs ensures HasCustomer(r.customers, k) {
      var x :| x in db.customers && x.pk == k;
      assert x in r.customers;
    }
    forall k | HasProject(db.projects, k) && k !in projs ensures HasProject(r.projects, k) {
      var p :| p in db.projects && p.pk == k;
      assert p in r.projects;
    }
    assert ReferencesExist(r);
  }

  /** When rows only point at rows of their own company, deleting company `c`
      removes exactly the rows of `c`: nothing of another tenant is lost. */
  lemma CascadeSparesOtherTenants(db: Db, c: CompanyId)
    requires Consistent(db) && TenantCoherent(db)
    ensures var r := CascadeDelete(db, c);
      && (forall x :: x in db.companies && x.id != c ==> x in r.companies)
      && (forall p :: p in db.profiles && p.company != Some(c) ==> p in r.profiles)
      && (forall x :: x in db.customers && x.company != c ==> x in r.customers)
      && (forall p :: p in db.projects && p.company != c ==> p in r.projects)
      && (forall t :: t in db.timeEntries && t.company != c ==> t in r.timeEntries)
      && (forall t :: t in db.todos && t.company != c ==> t in r.todos)
      && (forall m :: m in db.milestones && m.company != c ==> m in r.milestones)
  {
    var custs := DoomedCustomers(db, c);
    var projs := DoomedProjects(db, c);
    // A customer key of another company's customer is not doomed.
    forall x | x in db.customers && x.company != c ensures x.pk !in custs {
      if x.pk in custs {
        var y :| y in db.customers && y.company == c && y.pk == x.pk;
        UniqueKeyDeterminesRow(db.customers, CustomerKey, x, y);
      }
    }
    // A project of another company is not doomed.
    forall p | p in db.projects && p.company != c ensures p.customer !in custs && p.pk !in projs {
      var x :| x in db.customers && x.pk == p.customer;
      if p.pk in projs {
        var q :| q in db.projects && (q.company == c || q.customer in custs) && q.pk == p.pk;
        UniqueKeyDeterminesRow(db.projects, ProjectKey, p, q);
      }
    }
    forall t | t in db.timeEntries && t.company != c ensures t.project !in projs {
      var p :| p in db.projects && p.pk == t.project;
    }
    forall t | t in db.todos && t.company != c ensures t.customer !in custs && t.project !in projs {
      var x :| x in db.customers && x.pk == t.customer;
      var p :| p in db.projects && p.pk == t.project;
    }
    forall m | m in db.milestones && m.company != c ensures m.project !in projs {
      var p :| p in db.projects && p.pk == m.project;
    }
  }
}

=== FILE: tables.dfy ===
/** Generic operations on a database table, seen as the sequence of its rows in
    primary-key order: the row filter every queryset narrowing compiles to, and the
    uniqueness constraint a unique column (or a primary key) imposes. */
module Tables {

  /** The rows of `s` that satisfy `keep`, in their original order
      (`queryset.filter(...)`). Every kept row keeps its multiplicity; every other
      row is gone. */
  function Filter<T(!new)>(s: seq<T>, keep: T -> bool): (r: seq<T>)
    ensures forall x :: multiset(r)[x] == if keep(x) then multiset(s)[x] else 0
    ensures forall x :: x in r <==> x in s && keep(x)
    ensures |r| <= |s|
  {
    if s == [] then []
    else
      var rest := Filter(s[1..], keep);
      assert s == [s[0]] + s[1..];
      if keep(s[0]) then [s[0]] + rest else rest
  }

  /** No two rows of `s` share a value in the column `key`. */
  ghost predicate UniqueBy<T, K>(s: seq<T>, key: T -> K)
  {
    forall i, j :: 0 <= i < |s| && 0 <= j < |s| && i != j ==> key(s[i]) != key(s[j])
  }

  /** Inserting a row whose key no existing row carries keeps the column unique. */
  lemma UniqueAppend<T, K>(s: seq<T>, y: T, key: T -> K)
    requires UniqueBy(s, key)
    requires forall x :: x in s ==> key(x) != key(y)
    ensures UniqueBy(s + [y], key)
  {
    var t := s + [y];
    forall i, j | 0 <= i < |t| && 0 <= j < |t| && i != j
      ensures key(t[i]) != key(t[j])
    {
      if i == |s| {
        assert t[j] in s;
      } else if j == |s| {
        assert t[i] in s;
      }
    }
  }

  /** Deleting rows never makes two remaining rows share a key. */
  lemma {:induction false} UniqueFilter<T(!new), K>(s: seq<T>, keep: T -> bool, key: T -> K)
    requires UniqueBy(s, key)
    ensures UniqueBy(Filter(s, keep), key)
  {
    if s != [] {
      var tail := s[1..];
      assert UniqueBy(tail, key) by {
        forall i, j | 0 <= i < |tail| && 0 <= j < |tail| && i != j
          ensures key(tail[i]) != key(tail[j])
        {
          assert tail[i] == s[i + 1] && tail[j] == s[j + 1];
        }
      }
      UniqueFilter(tail, keep, key);
      var rest := Filter(tail, keep);
      if keep(s[0]) {
        forall x | x in rest ensures key(x) != key(s[0]) {
          assert x in tail;
          var k :| 0 <= k < |tail| && tail[k] == x;
          assert s[k + 1] == x;
        }
        UniqueCons(s[0], rest, key);
      }
    }
  }

  /** Putting a row in front of a unique column whose keys all differ from it. */
  lemma UniqueCons<T, K>(h: T, s: seq<T>, key: T -> K)
    requires UniqueBy(s, key)
    requires forall x :: x in s ==> key(x) != key(h)
    ensures UniqueBy([h] + s, key)
  {
    var t := [h] + s;
    forall i, j | 0 <= i < |t| && 0 <= j < |t| && i != j
      ensures key(t[i]) != key(t[j])
    {
      if i == 0 {
        assert t[j] == s[j - 1] && t[j] in s;
      } else if j == 0 {
        assert t[i] == s[i - 1] && t[i] in s;
      } else {
        assert t[i] == s[i - 1] && t[j] == s[j - 1];
      }
    }
  }

  /** In a table whose column `key` is unique, the row carrying a given key is
      the only one: two rows with the same key are the same row. */
  lemma UniqueKeyDeterminesRow<T, K>(s: seq<T>, key: T -> K, x: T, y: T)
    requires UniqueBy(s, key)
    requires x in s && y in s && key(x) == key(y)
    ensures x == y
  {
    var i :| 0 <= i < |s| && s[i] == x;
    var j :| 0 <= j < |s| && s[j] == y;
  }
}

=== FILE: views.dfy ===
/** The tenant views: company registration, the dashboard, and the customer and
    project create views with the project form's customer dropdown. Each view
    takes the database it works on and the acting (logged-in) user's id, and
    ends in an `Outcome`: a redirect, the form shown again with its errors, or an
    exception that escapes the view. */
module Views {
  import opened Wrappers
  import opened Tables
  import opened Models
  import Forms
  import opened Mixins
  import opened Database

  /** Where a redirect sends the browser: the login page, or the site root. */
  datatype Page = Login | Home

  datatype Outcome = Redirect(to: Page) | Rerender | ServerError(error: DbError)

  /** The database after registering the company and the admin user described by
      the cleaned form `cd`: one new company, one new user, and that user's profile
      pointing at the company with the admin right. */
  ghost function Registered(db: Db, cd: Forms.CleanedData, now: Timestamp): Db
    requires Forms.CompanyName in cd && Forms.Username in cd && Forms.Email in cd && Forms.Password in cd
  {
    var cid := db.nextCompany;
    var uid := db.nextUser;
    db.(companies := db.companies + [Company(cid, cd[Forms.CompanyName], now)],
        users := db.users + [User(uid, cd[Forms.Username], NormalizeEmail(cd[Forms.Email]), cd[Forms.Password])],
        profiles := db.profiles + [UserProfile(uid, Some(cid), true)],
        nextCompany := cid + 1,
        nextUser := uid + 1)
  }

  /** A registration adds exactly one company, one user and one profile; the new
      user's only profile points at the new company and carries the admin right,
      and nothing of the other tenants changes. */
  lemma RegistrationMakesAdmin(db: Db, cd: Forms.CleanedData, now: Timestamp)
    requires Consistent(db)
    requires Forms.CompanyName in cd && Forms.Username in cd && Forms.Email in cd && Forms.Password in cd
    ensures var r := Registered(db, cd, now);
      && |r.companies| == |db.companies| + 1 && |r.users| == |db.users| + 1 && |r.profiles| == |db.profiles| + 1
      && (exists c :: c in r.companies && c !in db.companies && c.id == db.nextCompany && c.name == cd[Forms.CompanyName])
      && FindProfile(r.profiles, db.nextUser) == Some(UserProfile(db.nextUser, Some(db.nextCompany), true))
      && r.customers == db.customers && r.projects == db.projects && r.timeEntries == db.timeEntries
  {
    var r := Registered(db, cd, now);
    var admin := UserProfile(db.nextUser, Some(db.nextCompany), true);
    var company := Company(db.nextCompany, cd[Forms.CompanyName], now);
    assert company in r.companies;
    assert admin in r.profiles;
    forall x | x in db.profiles ensures x.user != db.nextUser {
      var u :| u in db.users && u.id == x.user;
    }
    UniqueAppend(db.profiles, admin, ProfileKey);
    FindProfileUnique(r.profiles, db.nextUser, admin);
  }

  /** Right after the company and the user are created, the user's profile is the
      blank one just appended, and saving it with the company and the admin right
      gives the registered state. */
  lemma AdminProfileRegistered(saved: Db, cd: Forms.CleanedData, now: Timestamp, mid: Db)
    requires Forms.CompanyName in cd && Forms.Username in cd && Forms.Email in cd && Forms.Password in cd
    requires forall x :: x in saved.profiles ==> x.user != saved.nextUser
    requires mid.companies == saved.companies + [Company(saved.nextCompany, cd[Forms.CompanyName], now)]
    requires mid.users == saved.users + [User(saved.nextUser, cd[Forms.Username], NormalizeEmail(cd[Forms.Email]), cd[Forms.Password])]
    requires mid.profiles == saved.profiles + [UserProfile(saved.nextUser, None, false)]
    requires mid.customers == saved.customers && mid.projects == saved.projects
    requires mid.timeEntries == saved.timeEntries && mid.todos == saved.todos && mid.milestones == saved.milestones
    requires mid.nextCompany == saved.nextCompany + 1 && mid.nextUser == saved.nextUser + 1
    requires mid.nextCustomer == saved.nextCustomer && mid.nextProject == saved.nextProject
    ensures FindProfile(mid.profiles, saved.nextUser) == Some(UserProfile(saved.nextUser, None, false))
    ensures mid.(profiles := ReplaceProfile(mid.profiles, UserProfile(saved.nextUser, Some(saved.nextCompany), true)))
      == Registered(saved, cd, now)
  {
    var blank := UserProfile(saved.nextUser, None, false);
    assert blank in mid.profiles;
    ReplaceAppended(saved.profiles, blank, UserProfile(saved.nextUser, Some(saved.nextCompany), true));
    var r := Registered(saved, cd, now);
    assert mid.companies == r.companies && mid.users == r.users;
    assert mid.nextCompany == r.nextCompany && mid.nextUser == r.nextUser;
  }

  /** `RegisterCompanyView.post`. An invalid form is shown again and nothing is
      stored. A valid one, in one transaction, creates the company, creates the
      user (which creates the user's blank profile), and makes the user the
      company's admin; a failing step (a username already in use) rolls all of it
      back and the exception escapes. */
  method RegisterCompany(st: Store, post: map<Forms.Field, string>, now: Timestamp) returns (o: Outcome)
    requires st.Valid()
    modifies st
    ensures st.Valid()
    ensures Forms.FullClean(post).Err? ==> o == Rerender && st.db == old(st.db)
    ensures Forms.FullClean(post).Ok? && UsernameTaken(old(st.db.users), Forms.FullClean(post).value[Forms.Username]) ==>
      o == ServerError(IntegrityError) && st.db == old(st.db)
    ensures Forms.FullClean(post).Ok? && !UsernameTaken(old(st.db.users), Forms.FullClean(post).value[Forms.Username]) ==>
      o == Redirect(Login) && st.db == Registered(old(st.db), Forms.FullClean(post).value, now)
    ensures TenantCoherent(old(st.db)) ==> TenantCoherent(st.db)
  {
    var form := Forms.FullClean(post);
    if form.Err? {
      return Rerender;
    }
    var cd := form.value;
    Forms.ValidFormNonBlank(post, cd);
    var saved := st.db;  // transaction.atomic()
    var cid := st.CreateCompany(cd[Forms.CompanyName], now);
    var created := st.CreateUser(cd[Forms.Username], cd[Forms.Email], cd[Forms.Password]);
    if created.Err? {
      st.Rollback(saved);
      return ServerError(created.error);
    }
    var uid := created.value;
    assert st.db.companies == saved.companies + [Company(cid, cd[Forms.CompanyName], now)];
    assert st.db.customers == saved.customers && st.db.projects == saved.projects;
    forall x | x in saved.profiles ensures x.user != uid {
      var u :| u in saved.users && u.id == x.user;
    }
    AdminProfileRegistered(saved, cd, now, st.db);
    var profile := FindProfile(st.db.profiles, uid).value;  // user.profile
    var admin := profile.(company := Some(cid), isCompanyAdmin := true);
    assert Company(cid, cd[Forms.CompanyName], now) in st.db.companies;
    assert User(uid, cd[Forms.Username], NormalizeEmail(cd[Forms.Email]), cd[Forms.Password]) in st.db.users;
    st.SaveProfile(admin);
    o := Redirect(Login);
  }

  /** What the dashboard page shows. */
  datatype DashboardContext = DashboardContext(projects: seq<Project>, customers: seq<Customer>)

  /** `DashboardView` as written: the project list is the guard's narrowed
      queryset; `get_context_data` then reads the user's profile, which raises for a
      user without one, and lists the customers of the profile's company. */
  method Dashboard(st: Store, uid: UserId) returns (r: Result<DashboardContext, DbError>)
    ensures var profile := FindProfile(st.db.profiles, uid);
      && (r.Err? <==> profile.None?)
      && (r.Err? ==> r.error == RelatedObjectDoesNotExist)
      && (r.Ok? ==>
            && (forall p :: p in r.value.projects <==> p in st.db.projects && Some(p.company) == profile.value.company)
            && (forall c :: c in r.value.customers <==> c in st.db.customers && Some(c.company) == profile.value.company)
            && r.value.customers == GetQueryset(st.db.customers, CustomerCompany, profile))
  {
    var profile := FindProfile(st.db.profiles, uid);
    var projects := GetQueryset(st.db.projects, ProjectCompany, profile);
    if profile.None? {
      return Err(RelatedObjectDoesNotExist);
    }
    var customers := CustomersOf(st.db.customers, profile.value.company);
    CustomersOfIsScoped(st.db.customers, profile.value);
    r := Ok(DashboardContext(projects, customers));
  }

  /** The dashboard as the guard intends it: a user without a profile sees two
      empty lists instead of an error; every other user sees exactly the projects
      and customers of the profile's company. */
  method DashboardCorrected(st: Store, uid: UserId) returns (ctx: DashboardContext)
    ensures var company := ActiveCompany(FindProfile(st.db.profiles, uid));
      && (company.None? ==> ctx.projects == [] && ctx.customers == [])
      && (forall p :: p in ctx.projects <==> p in st.db.projects && Some(p.company) == company)
      && (forall c :: c in ctx.customers <==> c in st.db.customers && Some(c.company) == company)
  {
    var profile := FindProfile(st.db.profiles, uid);
    var projects := GetQueryset(st.db.projects, ProjectCompany, profile);
    var customers := GetQueryset(st.db.customers, CustomerCompany, profile);
    ctx := DashboardContext(projects, customers);
  }

  /** A user whose company was deleted has lost the profile with it (the profile
      cascades), and the dashboard as written then raises. Take any valid
      registration on a fresh database: its admin (user 1) logs in, the company
      is deleted, and the dashboard opened in that earlier session fails where the
      corrected one shows empty lists. */
  method OrphanedAdminDashboard(post: map<Forms.Field, string>, now: Timestamp)
    returns (registered: Outcome, r: Result<DashboardContext, DbError>, fixed: DashboardContext)
    requires Forms.FullClean(post).Ok?
    ensures registered == Redirect(Login)
    ensures r == Err(RelatedObjectDoesNotExist)
    ensures fixed == DashboardContext([], [])
  {
    var st := new Store();
    registered := RegisterCompany(st, post, now);
    RegisteredCompanyDeleted(Forms.FullClean(post).value, now);
    st.DeleteCompany(1);
    r := Dashboard(st, 1);
    fixed := DashboardCorrected(st, 1);
  }

  /** After the same registration and deletion, the admin cannot log in anew:
      `login()` re-saves the user to record the login time, and the `post_save`
      receiver raises on the missing profile. */
  method OrphanedAdminLogin(post: map<Forms.Field, string>, now: Timestamp) returns (relogin: Result<(), DbError>)
    requires Forms.FullClean(post).Ok?
    ensures relogin == Err(RelatedObjectDoesNotExist)
  {
    var st := new Store();
    var registered := RegisterCompany(st, post, now);
    ghost var cd := Forms.FullClean(post).value;
    RegisteredCompanyDeleted(cd, now);
    st.DeleteCompany(1);
    ghost var orphaned := CascadeDelete(Registered(EmptyDb, cd, now), 1);
    assert st.db.users == orphaned.users && st.db.profiles == orphaned.profiles;
    var admin := st.db.users[0];
    assert st.db.users == [admin];
    relogin := st.SaveUser(admin);
  }

  /** Deleting the first company registered on a fresh database deletes its
      admin's profile with it, and no other profile is left; the admin's user row
      stays. */
  lemma RegisteredCompanyDeleted(cd: Forms.CleanedData, now: Timestamp)
    requires Forms.CompanyName in cd && Forms.Username in cd && Forms.Email in cd && Forms.Password in cd
    ensures Registered(EmptyDb, cd, now).profiles == [UserProfile(1, Some(1), true)]
    ensures CascadeDelete(Registered(EmptyDb, cd, now), 1).profiles == []
    ensures |CascadeDelete(Registered(EmptyDb, cd, now), 1).users| == 1
    ensures CascadeDelete(Registered(EmptyDb, cd, now), 1).users[0].id == 1
  {
  }

  /** `ProjectCreateView.get_form`: the customer dropdown offers exactly the
      customers of the acting user's company, the same rows the guard would let
      the user see; reading the profile raises for a user without one. */
  method ProjectFormChoices(st: Store, uid: UserId) returns (r: Result<seq<Customer>, DbError>)
    ensures var profile := FindProfile(st.db.profiles, uid);
      && (r.Err? <==> profile.None?)
      && (r.Err? ==> r.error == RelatedObjectDoesNotExist)
      && (r.Ok? ==>
            && (forall c :: c in r.value <==> c in st.db.customers && Some(c.company) == profile.value.company)
            && r.value == GetQueryset(st.db.customers, CustomerCompany, profile))
  {
    var profile := FindProfile(st.db.profiles, uid);
    if profile.None? {
      return Err(RelatedObjectDoesNotExist);
    }
    CustomersOfIsScoped(st.db.customers, profile.value);
    r := Ok(CustomersOf(st.db.customers, profile.value.company));
  }

  /** A submitted project form; a field the request left out is `None`. */
  datatype ProjectPost = ProjectPost(
    customer: Option<Pk>, projectId: Option<int>, name: Option<string>, description: Option<string>,
    startDate: Option<Date>, endDate: Option<Date>, isActive: bool)

  /** Validation of the project form against its customer dropdown `choices`: a
      customer from the dropdown, a `project_id` within the `IntegerField` range
      that no project of any company uses, a non-blank name of at most 255
      characters and a start date; the description may be blank or left out, but
      neither text may hold a null character. */
  function CleanProjectForm(post: ProjectPost, choices: seq<Customer>, projects: seq<Project>)
    : (r: Option<ProjectFields>)
    ensures r.Some? <==>
      && post.customer.Some? && (exists c :: c in choices && c.pk == post.customer.value)
      && post.projectId.Some? && InIntegerFieldRange(post.projectId.value)
      && (forall p :: p in projects ==> p.projectId != post.projectId.value)
      && Forms.CleanText(post.name, Some(255)).Ok?
      && Forms.CleanOptionalText(post.description).Ok?
      && post.startDate.Some?
    ensures r.Some? ==>
      && r.value.customer == post.customer.value && r.value.projectId == post.projectId.value
      && r.value.name == Forms.Strip(post.name.value)
      && r.value.description == (if post.description.None? then "" else Forms.Strip(post.description.value))
      && r.value.startDate == post.startDate.value
      && r.value.endDate == post.endDate && r.value.isActive == post.isActive
  {
    var name := Forms.CleanText(post.name, Some(255));
    var description := Forms.CleanOptionalText(post.description);
    if post.customer.None? || !(exists c :: c in choices && c.pk == post.customer.value) then None
    else if post.projectId.None? || !InIntegerFieldRange(post.projectId.value) then None
    else if exists p :: p in projects && p.projectId == post.projectId.value then None
    else if name.Err? || description.Err? || post.startDate.None? then None
    else
      Some(ProjectFields(post.customer.value, post.projectId.value, name.value, description.value,
                         post.startDate.value, post.endDate, post.isActive))
  }

  /** `ProjectCreateView.post`: the form (with the filtered dropdown) is built,
      validated, and on success `form_valid` gives the instance the acting user's
      company before saving it. The new project therefore belongs to the company
      of its customer, and a database whose rows only point within their own
      company stays so. */
  method CreateProject(st: Store, uid: UserId, post: ProjectPost) returns (o: Outcome)
    requires st.Valid()
    modifies st
    ensures st.Valid()
    ensures var profile := FindProfile(old(st.db.profiles), uid);
      && (profile.None? ==> o == ServerError(RelatedObjectDoesNotExist) && st.db == old(st.db))
      && (profile.Some? ==>
            var form := CleanProjectForm(post, CustomersOf(old(st.db.customers), profile.value.company), old(st.db.projects));
            && (form.None? ==> o == Rerender && st.db == old(st.db))
            && (form.Some? ==>
                  var f := form.value;
                  && o == Redirect(Home)
                  && profile.value.company.Some?
                  && (exists c :: c in old(st.db.customers) && c.pk == f.customer && Some(c.company) == profile.value.company)
                  && st.db == AddProject(old(st.db), profile.value.company.value, f)))
    ensures TenantCoherent(old(st.db)) ==> TenantCoherent(st.db)
  {
    var choices := ProjectFormChoices(st, uid);
    if choices.Err? {
      return ServerError(choices.error);
    }
    var form := CleanProjectForm(post, choices.value, st.db.projects);
    if form.None? {
      return Rerender;
    }
    var profile := FindProfile(st.db.profiles, uid).value;
    var customer :| customer in choices.value && customer.pk == form.value.customer;
    assert HasCompany(st.db.companies, customer.company);
    assert HasCustomer(st.db.customers, customer.pk);
    var inst := StampCompany(Instance(None, form.value), profile);  // form_valid
    ghost var before := st.db;
    ghost var row := Project(before.nextProject, customer.company, customer.pk, form.value.projectId, form.value.name,
                             form.value.description, form.value.startDate, form.value.endDate, form.value.isActive);
    assert !HasProject(before.projects, row.pk);
    if TenantCoherent(before) {
      NewProjectKeepsCoherent(before, row);
    }
    var saved := st.InsertProject(inst);
    assert saved.Ok?;
    o := Redirect(Home);
  }

  /** A submitted customer form: the two fields `CustomerCreateView` puts on it. */
  datatype CustomerPost = CustomerPost(name: Option<string>, email: Option<string>)

  /** The customer form's field checks: a non-blank name of at most 255 characters
      and a non-blank e-mail address of at most 254. */
  function CleanCustomerForm(post: CustomerPost): (r: Option<(string, string)>)
    ensures r.Some? <==> Forms.CleanText(post.name, Some(255)).Ok? && Forms.CleanText(post.email, Some(254)).Ok?
    ensures r.Some? ==> r.value == (Forms.Strip(post.name.value), Forms.Strip(post.email.value))
  {
    var name := Forms.CleanText(post.name, Some(255));
    var email := Forms.CleanText(post.email, Some(254));
    if name.Ok? && email.Ok? then Some((name.value, email.value)) else None
  }

  /** `CustomerCreateView.post` as written. The form carries no `customer_id`, a
      column that may not be null and has no default, so the insert after
      `form_valid` always fails: no submission ever stores a customer. */
  method CreateCustomer(st: Store, uid: UserId, post: CustomerPost) returns (o: Outcome)
    requires st.Valid()
    modifies st
    ensures st.Valid() && st.db == old(st.db)
    ensures TenantCoherent(old(st.db)) ==> TenantCoherent(st.db)
    ensures o != Redirect(Home)
    ensures o == Rerender <==> CleanCustomerForm(post).None?
    ensures CleanCustomerForm(post).Some? ==>
      o == ServerError(if FindProfile(old(st.db.profiles), uid).None? then RelatedObjectDoesNotExist else IntegrityError)
  {
    var form := CleanCustomerForm(post);
    if form.None? {
      return Rerender;
    }
    var profile := FindProfile(st.db.profiles, uid);
    if profile.None? {
      return ServerError(RelatedObjectDoesNotExist);
    }
    var inst := StampCompany(Instance(None, CustomerFields(None, form.value.0, form.value.1)), profile.value);
    var saved := st.InsertCustomer(inst);
    o := if saved.Ok? then Redirect(Home) else ServerError(saved.error);
  }

  /** `CustomerCreateView.post` with `customer_id` on the form, as the view's own
      comment lists it: the number is required, must lie in the `IntegerField`
      range and, being unique over all customers, is refused when any customer of
      any company has it; on success the
      new customer belongs to the acting user's company. A user whose profile has
      no company still gets the database's not-null error. */
  method CreateCustomerCorrected(st: Store, uid: UserId, post: CustomerPost, customerId: Option<int>)
    returns (o: Outcome)
    requires st.Valid()
    modifies st
    ensures st.Valid()
    ensures var valid := CleanCustomerForm(post).Some? && customerId.Some? && InIntegerFieldRange(customerId.value)
                         && forall x :: x in old(st.db.customers) ==> x.customerId != customerId.value;
      var profile := FindProfile(old(st.db.profiles), uid);
      && (!valid ==> o == Rerender && st.db == old(st.db))
      && (valid && profile.None? ==> o == ServerError(RelatedObjectDoesNotExist) && st.db == old(st.db))
      && (valid && profile.Some? && profile.value.company.None? ==>
            o == ServerError(IntegrityError) && st.db == old(st.db))
      && (valid && profile.Some? && profile.value.company.Some? ==>
            var f := CleanCustomerForm(post).value;
            && o == Redirect(Home)
            && st.db == AddCustomer(old(st.db), profile.value.company.value, customerId.value, f.0, f.1))
    ensures TenantCoherent(old(st.db)) ==> TenantCoherent(st.db)
  {
    var form := CleanCustomerForm(post);
    if form.None? || customerId.None? || !InIntegerFieldRange(customerId.value) || exists x :: x in st.db.customers && x.customerId == customerId.value {
      return Rerender;
    }
    var profile := FindProfile(st.db.profiles, uid);
    if profile.None? {
      return ServerError(RelatedObjectDoesNotExist);
    }
    if profile.value.company.Some? {
      assert HasCompany(st.db.companies, profile.value.company.value);
    }
    var inst := StampCompany(Instance(None, CustomerFields(customerId, form.value.0, form.value.1)), profile.value);
    ghost var before := st.db;
    if TenantCoherent(before) && profile.value.company.Some? {
      ghost var row := Customer(before.nextCustomer, profile.value.company.value, customerId.value,
                                form.value.0, form.value.1);
      assert !HasCustomer(before.customers, row.pk);
      NewCustomerKeepsCoherent(before, row);
    }
    var saved := st.InsertCustomer(inst);
    o := if saved.Ok? then Redirect(Home) else ServerError(saved.error);
  }
}

=== FILE: wrappers.dfy ===
/** Option and Result, the two failure-carrying shapes the model uses for nullable
    columns, missing related objects and operations that can raise. */
module Wrappers {

  datatype Option<+T> = None | Some(value: T)

  datatype Result<+R, +E> = Ok(value: R) | Err(error: E)
}
